=== FILE: README.md ===
# A verified model of a small PHP template engine

The engine is one class, `Template` (`html/templates/template.class.php`).
A template is bound to a file `folder/file` under a root directory. Callers
`set` values for the tags in it. `output()` reads the file and returns it
rendered:

1. If the file does not exist, `output()` returns an inline error string naming it.
2. It strips `/* … */` block comments, then `//` line comments. A `//` directly
   after a colon, as in a URL, is not a comment.
3. It resolves `[?if TAG]…[?fi]` conditionals.
4. It replaces every `[@key]` with its value.
5. It deletes any `[@word]` tag that is still left.

The static `merge` renders a list of templates and appends a separator after
each output. Any item that is not a template contributes a fixed error string.

The model has four modules:

- `Strings` (`strings.dfy`): PHP's `str_replace` as `ReplaceAll`. Beside it is
  a reference definition, `Split`/`Join` (PHP's `explode`/`implode`), and the
  proof that the two agree.
- `Patterns` (`patterns.dfy`): the four fixed regular expressions of `output()`.
  Each one is written as the left-to-right scan that `preg_replace` or
  `preg_match_all` performs. The block-comment pattern is non-greedy and
  crosses lines. The line-comment pattern has the `(?<!:)` lookbehind and a `.*`
  that stops at a newline. The if-block pattern uses the greedy `\w+` tag and
  the lazy body. Then comes the leftover-tag pattern.
- `Table` (`table.dfy`): the `values` array as a list of (key, value) pairs in
  insertion order, because a PHP array iterates in that order. `$a[$k] = $v`
  is `Assign`.
- `Templates` (`templates.dfy`): the render pipeline as pure functions
  (`Render`), the class `Template` (fields `file`, `rootdir`, `values`, the
  constructor, `Set`, `Output`) and the static method `Merge`.

`Output` and `Merge` are methods with the source's loops. `Output` loops over
the collected if blocks and then over the values. `Merge` loops over the
items. Each method is proved equal to a specification function, and the
lemmas state what those functions promise.

Where the code and its documented intent differ, the model follows the code:

- A value of `"0"` is *truthy*. Line 79 tests `strcmp($this->values[$tag], '')`,
  and that is non-zero for `"0"`, so the block keeps its body (`ZeroKeepsBody`).
  A missing key reads as null, and null compares equal to `''`, so the block
  is dropped.
- The order of `values` matters. The `foreach` at line 87 follows insertion
  order, and a later key acts on text that an earlier value inserted
  (`SubstituteInOrder`).
- Conditionals are resolved the way the code does it. All matches are
  collected first. Then, match by match, every occurrence of that match's whole
  text is replaced (a global `str_replace`). This is not a single scan.

## Model

| member | source | states |
|---|---|---|
| `Strings.ReplaceAll` | html/templates/template.class.php:80-89 | `str_replace`; characterised by `ReplaceAllIsSplitJoin`, `ReplaceAllAbsent` and `ReplaceAllStep` |
| `Patterns.StripBlockComments` | html/templates/template.class.php:71-72 | the block-comment pattern; characterised by `BlockStripNoOpener`, `BlockCommentRemoved` and `UnclosedBlockKept` |
| `Patterns.StripLineCommentsFrom` | html/templates/template.class.php:71-72 | the line-comment pattern with its lookbehind state; characterised by `ColonGuard`, `LinePlainPrefix`, `LineCommentRemoved`, `TrailingLineComment` and `LineStripKeepsNewlines` |
| `Templates.IsTruthy` | html/templates/template.class.php:79 | the `strcmp` test; characterised by `ResolveSingleBlock` and `ZeroKeepsBody` |
| `Templates.ApplyIfBlocks` | html/templates/template.class.php:78-84 | the loop over the matches; characterised by `ResolveSingleBlock`, `ResolveBlockInText`, `ResolveTwoBlocks`, `NestedCopyLeavesOpener` and `ResolveNoBlocks`, and equal to the first loop of `Output` |
| `Templates.ResolveIfBlocks` | html/templates/template.class.php:75-84 | match collection then replacement; characterised by `ResolveSingleBlock`, `ResolveBlockInText`, `ResolveTwoBlocks`, `NestedCopyLeavesOpener` and `ResolveNoBlocks` |
| `Templates.SubstituteTags` | html/templates/template.class.php:87-91 | the loop over the values; characterised by `SubstituteInOrder`, `SubstituteOneKey` and `SubstituteNoTags`, and equal to the second loop of `Output` |
| `Table.Assign` | html/templates/template.class.php:50 | array assignment; characterised by `AssignLookup`, `AssignKeys` and `AssignUnique` |
| `Templates.Render` | html/templates/template.class.php:58-96 | the whole of `output()`; characterised by `RenderPlain` and equal to `Output` |
| `Templates.Template.constructor` | html/templates/template.class.php:38-41 | the file is `folder + "/" + file`, the root directory is the one given, and no values are set |
| `Templates.Template.Set` | html/templates/template.class.php:49-51 | afterwards `key` reads back `value` and every other key reads as before; re-setting a key keeps the key order (no second entry); a new key is appended last; keys stay unique; file and root are unchanged |
| `Table.AssignLookup` | html/templates/template.class.php:50 | after `$values[$key] = $value`, a lookup of `key` gives `value` and a lookup of any other key gives what it gave before |
| `Table.AssignKeys` | html/templates/template.class.php:50 | assignment never reorders keys: an existing key leaves the key sequence unchanged, a new key is appended at the end together with its value |
| `Table.AssignUnique` | html/templates/template.class.php:50 | assignment keeps the keys unique |
| `Table.LookupEntry` | html/templates/template.class.php:79 | with unique keys, the value stored for a key is exactly what a lookup of it returns |
| `Table.Lookup` | html/templates/template.class.php:79 | a found value is an entry of the table under that key; nothing is found exactly when the key is absent |
| `Templates.Template.Output` | html/templates/template.class.php:58-96 | returns exactly `"Error loading template file (" + file + ").<br />"` when `rootdir + file` does not exist; otherwise it returns the file's text after comment stripping, conditional resolution, tag substitution and leftover-tag deletion, in that order (the specification function `Render`) |
| `Templates.RenderPlain` | html/templates/template.class.php:58-96 | a file with no `/*`, no `[?if`, no `[@` and no `//` except right after a colon (so no `//` at all, or only URLs) renders as exactly its contents |
| `Strings.ReplaceAllIsSplitJoin` | html/templates/template.class.php:89 | `str_replace` keeps the text between the leftmost non-overlapping occurrences verbatim and puts the replacement, verbatim, where each occurrence was |
| `Strings.SplitJoin` | html/templates/template.class.php:89 | the reference split is lossless: rejoining the pieces with the pattern gives back the text |
| `Strings.SplitPiecesFree` | html/templates/template.class.php:89 | no piece of the reference split contains the pattern, so every occurrence lies between two pieces |
| `Strings.ReplaceAllAbsent` | html/templates/template.class.php:80-82 | replacing a pattern that does not occur changes nothing |
| `Strings.IndexOf` | html/templates/template.class.php:76 | the result is the first occurrence at or after the start index, or there is no occurrence there at all |
| `Patterns.WordRun` | html/templates/template.class.php:76 | greedy `\w*`: the run is all word characters, and the character after it is not one |
| `Patterns.LineEnd` | html/templates/template.class.php:71 | `.` without the `s` flag: the index of the first newline, or the end of the text, with no newline before it |
| `Patterns.BlockStripNoOpener` | html/templates/template.class.php:71-72 | text without `/*` passes the block-comment pattern unchanged |
| `Patterns.BlockCommentRemoved` | html/templates/template.class.php:71-72 | a `/*` up to the first following `*/` is deleted, delimiters included, even across lines; the text before it is kept and the text after it is scanned afresh |
| `Patterns.ColonGuard` | html/templates/template.class.php:71-72 | a `//` directly after a colon never starts a line comment: text whose every `//` follows a colon is unchanged |
| `Patterns.LineCommentRemoved` | html/templates/template.class.php:71-72 | a `//` comment is deleted up to the end of its line and the newline that ends it is kept; the text before it is kept verbatim even when it holds `/` (closing tags) and `//` after a colon (URLs), so `see http://x // note` keeps the URL |
| `Patterns.LinePlainPrefix` | html/templates/template.class.php:71-72 | text whose every `//` is guarded by a colon (or by the lookbehind state at its start) and which does not end in `/` is copied unchanged, and the scan resumes after it with the lookbehind set by its last character |
| `Patterns.LineStripKeepsNewlines` | html/templates/template.class.php:71-72 | removing line comments never removes a newline: the newline count is unchanged for every input |
| `Patterns.StripComments` | html/templates/template.class.php:71-72 | both comment patterns, block comments first; characterised by `CommentFreeUnchanged` and by the rows of its two passes |
| `Patterns.BlockStripNoCloser` | html/templates/template.class.php:71-72 | text without `*/` passes the block-comment pattern unchanged, whatever `/*` it holds |
| `Patterns.UnclosedBlockKept` | html/templates/template.class.php:71-72 | a `/*` that no `*/` follows is not a comment: it and everything after it stay, and so does the text before it |
| `Patterns.TrailingLineComment` | html/templates/template.class.php:71-72 | a `//` comment on the last line, with no newline after it, is deleted to the end of the text, and the text before it is kept |
| `Patterns.CommentFreeUnchanged` | html/templates/template.class.php:71-72 | text containing neither `/*` nor `//` comes through both comment patterns unchanged |
| `Patterns.MatchIfAt` | html/templates/template.class.php:76 | a match is a prefix of the text of the form `[?if TAG]body[?fi]` with TAG a word and no `[?fi]` inside the body |
| `Patterns.MatchIfBlockAt` | html/templates/template.class.php:76 | a well-formed block at the start of the text is matched with its full tag and with the body running to the first `[?fi]` |
| `Patterns.CollectIfBlocks` | html/templates/template.class.php:76-77 | every collected match has a word tag, a body without `[?fi]`, and the whole text `[?if TAG]body[?fi]` |
| `Patterns.NoIfOpenerNoBlocks` | html/templates/template.class.php:76-77 | text without `[?if` holds no matches |
| `Patterns.CollectPlainPrefix` | html/templates/template.class.php:76-77 | text free of `[?if` in front of an opener contributes no match, so the matches are those of the rest |
| `Templates.ResolveSingleBlock` | html/templates/template.class.php:76-84 | a lone `[?if T]body[?fi]` becomes `body` exactly when T is set to a string other than "" and becomes "" when T is unset or set to "" |
| `Templates.ResolveBlockInText` | html/templates/template.class.php:76-84 | a block inside a template, with no other conditional before or after it, becomes its body when its tag is set to a non-empty string and vanishes otherwise; the surrounding text is kept verbatim |
| `Templates.ReplaceBlockInText` | html/templates/template.class.php:80-82 | a block's whole text between texts free of `[?if` occurs once, and `str_replace` puts the replacement exactly there |
| `Patterns.CollectBlockAfter` | html/templates/template.class.php:76-77 | text free of `[?if` followed by a well-formed block: that block, with its full tag and body, is the first match, and the rest is scanned afresh |
| `Patterns.SameBlock` | html/templates/template.class.php:76 | the match at a position is unique: two well-formed blocks starting there have the same tag and body |
| `Patterns.OtherBlockAbsent` | html/templates/template.class.php:80-82 | a block's text does not occur in a text holding only a different block between texts free of `[?if` |
| `Templates.CollectTwoBlocks` | html/templates/template.class.php:76-77 | two well-formed blocks between texts free of `[?if` give exactly two matches, in text order |
| `Templates.ResolveTwoBlocks` | html/templates/template.class.php:76-84 | two blocks in one template, between texts free of `[?if`, each become their body or nothing by their own tag, and the text around and between them is kept, also when both blocks are the same text; this holds when the result has no `[?if` of its own and the second body holds no opener |
| `Templates.ReplaceSameBlockTwice` | html/templates/template.class.php:80-82 | when both matches are the same text, the first global replacement replaces both copies and the second finds none |
| `Templates.ReplaceDistinctBlocks` | html/templates/template.class.php:80-82 | when the two matches differ, each global replacement finds its own block exactly once |
| `Templates.NestedCopyLeavesOpener` | html/templates/template.class.php:76-84 | with A and B set, `[?if A]x[?fi] [?if B][?if A]x[?fi]` renders as `x [?if B]x`: the first global replacement rewrites the copy inside the second match, so the second match no longer occurs and its opener is left in the output |
| `Templates.ZeroKeepsBody` | html/templates/template.class.php:79-80 | a tag set to "0" keeps its block's body |
| `Templates.ResolveNoBlocks` | html/templates/template.class.php:74-84 | text without `[?if` comes through conditional resolution unchanged |
| `Templates.TagFor` | html/templates/template.class.php:88 | the tag `[@key]` that a key stands for; characterised by `SubstituteOneKey` |
| `Templates.SubstituteInOrder` | html/templates/template.class.php:87-90 | keys act in insertion order: the first key's tag is replaced in the original text and the later keys act on that result |
| `Templates.SubstituteOneKey` | html/templates/template.class.php:87-90 | for one key, every leftmost non-overlapping `[@key]` becomes the value verbatim (no escaping) and the text between is kept verbatim |
| `Templates.SubstituteNoTags` | html/templates/template.class.php:87-90 | text without `[@` is unchanged by any table of values |
| `Patterns.StripLeftoverTags` | html/templates/template.class.php:92-93 | deleting leftover tags never lengthens the text |
| `Patterns.TagStripNoOpener` | html/templates/template.class.php:92-93 | text without `[@` passes the leftover-tag pattern unchanged |
| `Patterns.TagDeleted` | html/templates/template.class.php:92-93 | each `[@w]` with `w` a non-empty run of word characters is deleted, and the text before it is kept verbatim, including any stray `[@` there that is not followed by a word and `]` (such as `[@page-title]`) |
| `Patterns.TagPlainPrefix` | html/templates/template.class.php:92-93 | text holding no tag, though perhaps a stray `[@`, in front of a `[@` is copied unchanged and the scan resumes at that `[@` |
| `Templates.Template.Merge` | html/templates/template.class.php:105-120 | returns each item's contribution followed by the separator, in item order; the separator defaults to "\n" |
| `Templates.LoadError` | html/templates/template.class.php:64-66 | the message for a missing file, naming the file without the root; `Output` returns it exactly when the full path does not exist |
| `Templates.ItemText` | html/templates/template.class.php:113-115 | one item's contribution: a template's rendering, or `"Error, incorrect type - expected Template."` for any other item; characterised by `TextsAt` |
| `Templates.Texts` | html/templates/template.class.php:112-116 | one contribution per item |
| `Templates.TextsAt` | html/templates/template.class.php:112-116 | the contribution at position i is item i's own, so the contributions follow the items in order |
| `Templates.Joined` | html/templates/template.class.php:110-119 | the concatenation loop; characterised by `JoinedIsJoinThenSeparator` and equal to `Merge` |
| `Templates.JoinedIsJoinThenSeparator` | html/templates/template.class.php:110-119 | the merged text is "" for no items; otherwise it is `implode(separator, contributions)` followed by one more separator |

## Left out

- File I/O (lines 65, 68). `file_exists` and `file_get_contents` are replaced
  by a map from path to contents, passed to `Output` and `Merge`. A path that
  exists but cannot be read is not modelled. That covers a directory, a file
  without read permission, and any other read error. `file_exists` is true for
  such a path, `file_get_contents` returns false at line 68, and the pipeline
  then yields "" (with warnings).
- The server document root (line 39). The root directory, already ending in
  `/templates/`, is a constructor parameter.
- The general regular-expression engine. Only the four fixed patterns are
  modelled. The case where `preg_replace` fails and returns null (for example
  at PCRE's backtracking limit) is not modelled.
- Runtime type checks (line 113). `get_class` becomes the variant check on
  `Item`. A subclass of `Template` would also get the error string in the
  source; the model has no subclasses. Under PHP 8, `get_class` on a value
  that is not an object throws instead of returning; the model gives the
  error string for every item that is not a template.
- Lines 123-129: the usage at the end of the file. It only builds four
  templates and wires them together.
- PHP warnings and deprecations. A missing key and a null passed to `strcmp`
  raise them; the model gives only the resulting value (a missing key acts as
  "").
- Value types. `set` accepts any PHP value; the model takes strings.
- Key normalisation. PHP turns numeric-string keys into integer keys. This
  changes neither lookups nor the text `"[@$key]"`, so keys are plain strings
  here.
- Byte strings. PHP strings are bytes and `\w` is ASCII without the `u`
  flag. The model uses Dafny characters, and `\w` is `[A-Za-z0-9_]`.
- State. That `output()` changes no field is stated by `Output` having no
  `modifies` clause, not by an `ensures`.

=== FILE: patterns.dfy ===
// The four fixed regular expressions of the template engine, each written as
// the left-to-right scan that `preg_replace` / `preg_match_all` perform:
//   - block comments   `#/\*.*?\*/#s`
//   - line comments    `#(?<!:)//.*#`
//   - if blocks        `/\[\?if (?P<tag>\w+)\](?P<text>.*?)?\[\?fi\]/s`
//   - leftover tags    `/\[@\w+\]/`
module Patterns {
  import opened Strings

  /** PCRE `\w` without the UTF-8 flag: ASCII letters, digits and underscore. */
  predicate IsWordChar(c: char)
  {
    ('a' <= c <= 'z') || ('A' <= c <= 'Z') || ('0' <= c <= '9') || c == '_'
  }

  /** What `\w+` matches. */
  predicate IsWord(w: string)
  {
    |w| > 0 && forall i :: 0 <= i < |w| ==> IsWordChar(w[i])
  }

  /** Length of the longest run of word characters at the start of `s` (greedy `\w*`). */
  function WordRun(s: string): (n: nat)
    ensures n <= |s|
    ensures forall i :: 0 <= i < n ==> IsWordChar(s[i])
    ensures n < |s| ==> !IsWordChar(s[n])
  {
    if s != [] && IsWordChar(s[0]) then 1 + WordRun(s[1..]) else 0
  }

  lemma WordRunOf(w: string, t: string)
    requires forall i :: 0 <= i < |w| ==> IsWordChar(w[i])
    requires t != [] && !IsWordChar(t[0])
    ensures WordRun(w + t) == |w|
  {
    var s := w + t;
    assert s[|w|] == t[0];
    assert forall i :: 0 <= i < |w| ==> s[i] == w[i];
  }

  // ---------------------------------------------------------------------
  // Comments
  // ---------------------------------------------------------------------

  /**
   * Deletes every comment opener (slash, star) together with the text up to
   * the nearest closer (star, slash) after it, possibly across lines. An
   * opener without a closer stays.
   */
  function StripBlockComments(s: string): string
    decreases |s|
  {
    if s == [] then []
    else if "/*" <= s then
      match IndexOf(s, "*/", 2)
      case Some(k) => StripBlockComments(s[k + 2..])
      case None => [s[0]] + StripBlockComments(s[1..])
    else [s[0]] + StripBlockComments(s[1..])
  }

  /** Index of the first newline in `s`, or |s| when there is none. */
  function LineEnd(s: string): (e: nat)
    ensures e <= |s|
    ensures forall i :: 0 <= i < e ==> s[i] != '\n'
    ensures e < |s| ==> s[e] == '\n'
  {
    if s == [] || s[0] == '\n' then 0 else 1 + LineEnd(s[1..])
  }

  /**
   * Deletes every `//` up to (not including) the end of its line, unless the
   * `//` directly follows a colon. `afterColon` says whether the character
   * just before `s` in the whole text is a colon (the lookbehind `(?<!:)`).
   */
  function StripLineCommentsFrom(s: string, afterColon: bool): string
    decreases |s|
  {
    if s == [] then []
    else if "//" <= s && !afterColon then
      assert s[0] == '/';
      var e := LineEnd(s);
      StripLineCommentsFrom(s[e..], s[e - 1] == ':')
    else [s[0]] + StripLineCommentsFrom(s[1..], s[0] == ':')
  }

  function StripLineComments(s: string): string
  {
    StripLineCommentsFrom(s, false)
  }

  /** The two comment patterns, applied one after the other to the whole text. */
  function StripComments(s: string): string
  {
    StripLineComments(StripBlockComments(s))
  }

  /** Number of newline characters in `s`. */
  function Newlines(s: string): nat
  {
    if s == [] then 0 else (if s[0] == '\n' then 1 else 0) + Newlines(s[1..])
  }

  lemma {:induction false} NewlinesAppend(x: string, y: string)
    ensures Newlines(x + y) == Newlines(x) + Newlines(y)
  {
    if x != [] {
      assert (x + y)[1..] == x[1..] + y;
      NewlinesAppend(x[1..], y);
    } else {
      assert x + y == y;
    }
  }

  lemma {:induction false} NewlinesNone(x: string)
    requires forall i :: 0 <= i < |x| ==> x[i] != '\n'
    ensures Newlines(x) == 0
  {
    if x != [] {
      NewlinesNone(x[1..]);
    }
  }

  /** Text with no comment opener passes the block-comment pattern unchanged. */
  lemma {:induction false} BlockStripNoOpener(s: string)
    requires !Contains(s, "/*")
    ensures StripBlockComments(s) == s
  {
    if s != [] {
      PrefixOccurs(s, "/*");
      ContainsTail(s, "/*");
      BlockStripNoOpener(s[1..]);
    }
  }

  /** Unfolds the block-comment scan at a closed comment opening the text. */
  lemma BlockCommentAtStart(c: string, b: string)
    requires !Contains(c, "*/")
    ensures StripBlockComments("/*" + c + "*/" + b) == StripBlockComments(b)
  {
    var s := "/*" + c + "*/" + b;
    var k := 2 + |c|;
    assert s[..2] == "/*";
    assert s[2..k] == c;
    assert s[k..k + 2] == "*/";
    assert s[k + 2..] == b;
    forall j | 2 <= j < k ensures !OccursAt(s, "*/", j) {
      if j + 2 <= k {
        SliceOfSlice(s, 2, k, j - 2, 2);
        assert !OccursAt(c, "*/", j - 2);
      } else {
        assert s[j + 1] == '*';
      }
    }
    IndexOfIs(s, "*/", 2, k);
  }

  /** Unfolds the block-comment scan at a character that does not open a comment. */
  lemma BlockPlainChar(s: string)
    requires s != [] && !OccursAt(s, "/*", 0)
    ensures StripBlockComments(s) == [s[0]] + StripBlockComments(s[1..])
  {
    PrefixOccurs(s, "/*");
  }

  /**
   * Text free of a two-character opener, put in front of a text that starts
   * with it, does not itself start with the opener.
   */
  lemma NoOpenerAtFront(a: string, t: string, opener: string)
    requires |opener| == 2 && opener[0] != opener[1]
    requires a != [] && !Contains(a, opener) && opener <= t
    ensures !OccursAt(a + t, opener, 0)
  {
    var s := a + t;
    assert !OccursAt(a, opener, 0);
    if |a| >= 2 {
      assert s[0..2] == a[0..2];
    } else {
      assert s[1] == t[0] == opener[0];
    }
  }

  /** Text free of comment openers, in front of an opener, is copied unchanged. */
  lemma {:induction false} BlockPlainPrefix(a: string, t: string)
    requires !Contains(a, "/*") && "/*" <= t
    ensures StripBlockComments(a + t) == a + StripBlockComments(t)
    decreases |a|
  {
    if a == [] {
      assert a + t == t;
    } else {
      var s := a + t;
      assert s[1..] == a[1..] + t;
      NoOpenerAtFront(a, t, "/*");
      BlockPlainChar(s);
      ContainsTail(a, "/*");
      BlockPlainPrefix(a[1..], t);
      var x := StripBlockComments(t);
      ConsAppend(a, x);
    }
  }

  /**
   * A block comment is removed together with its delimiters, and the text
   * after its first closer is scanned afresh.
   */
  lemma BlockCommentRemoved(a: string, c: string, b: string)
    requires !Contains(a, "/*") && !Contains(c, "*/")
    ensures StripBlockComments(a + "/*" + c + "*/" + b) == a + StripBlockComments(b)
  {
    var t := "/*" + c + "*/" + b;
    assert a + "/*" + c + "*/" + b == a + t;
    BlockPlainPrefix(a, t);
    BlockCommentAtStart(c, b);
  }

  /** Text with no comment closer passes the block-comment pattern unchanged. */
  lemma {:induction false} BlockStripNoCloser(s: string)
    requires !Contains(s, "*/")
    ensures StripBlockComments(s) == s
  {
    if s != [] {
      ContainsTail(s, "*/");
      BlockStripNoCloser(s[1..]);
    }
  }

  /** An opener with no closer after it is not a comment: the opener and all after it stay. */
  lemma UnclosedOpenerKept(c: string)
    requires !Contains(c, "*/")
    ensures StripBlockComments("/*" + c) == "/*" + c
  {
    var s := "/*" + c;
    assert s[..2] == "/*";
    var r := IndexOf(s, "*/", 2);
    if r.Some? {
      assert s[r.value..r.value + 2] == c[r.value - 2..r.value];
      assert OccursAt(c, "*/", r.value - 2);
    }
    assert s[1..] == "*" + c;
    assert ("*" + c)[1..] == c;
    BlockStripNoCloser(c);
  }

  /**
   * A comment that is opened but never closed is kept, together with the
   * text before it.
   */
  lemma UnclosedBlockKept(a: string, c: string)
    requires !Contains(a, "/*") && !Contains(c, "*/")
    ensures StripBlockComments(a + "/*" + c) == a + "/*" + c
  {
    var t := "/*" + c;
    assert a + "/*" + c == a + t;
    assert t[..2] == "/*";
    BlockPlainPrefix(a, t);
    UnclosedOpenerKept(c);
  }

  lemma {:induction false} ColonGuardFrom(s: string, afterColon: bool)
    requires forall i :: OccursAt(s, "//", i) ==> if i == 0 then afterColon else s[i - 1] == ':'
    ensures StripLineCommentsFrom(s, afterColon) == s
  {
    if s != [] {
      PrefixOccurs(s, "//");
      forall i | OccursAt(s[1..], "//", i)
        ensures if i == 0 then s[0] == ':' else s[1..][i - 1] == ':'
      {
        OccursInTail(s, "//", i);
      }
      ColonGuardFrom(s[1..], s[0] == ':');
    }
  }

  /**
   * A `//` directly preceded by a colon never starts a comment: text whose
   * every `//` follows a colon (a URL such as `http://host`) is unchanged.
   */
  lemma ColonGuard(s: string)
    requires forall i :: OccursAt(s, "//", i) ==> 0 < i && s[i - 1] == ':'
    ensures StripLineComments(s) == s
  {
    ColonGuardFrom(s, false);
  }

  /**
   * Text in which every `//` is guarded (by the colon before it, or by
   * `afterColon` at its very start) and which does not end in `/` is copied
   * unchanged, and the scan goes on after it with the right lookbehind.
   */
  lemma {:induction false} LinePlainPrefix(a: string, t: string, afterColon: bool)
    requires forall i :: OccursAt(a, "//", i) ==> if i == 0 then afterColon else a[i - 1] == ':'
    requires a == [] || a[|a| - 1] != '/'
    ensures StripLineCommentsFrom(a + t, afterColon)
         == a + StripLineCommentsFrom(t, if a == [] then afterColon else a[|a| - 1] == ':')
    decreases |a|
  {
    if a != [] {
      LineFrontGuarded(a, t, afterColon);
      LineGuardTail(a, afterColon);
      LinePlainPrefix(a[1..], t, a[0] == ':');
      var x := StripLineCommentsFrom(t, a[|a| - 1] == ':');
      ConsAppend(a, x);
    } else {
      assert a + t == t;
    }
  }

  /** The first character of a guarded text does not open a comment, whatever follows. */
  lemma LineFrontGuarded(a: string, t: string, afterColon: bool)
    requires a != [] && a[|a| - 1] != '/'
    requires OccursAt(a, "//", 0) ==> afterColon
    ensures StripLineCommentsFrom(a + t, afterColon)
         == [a[0]] + StripLineCommentsFrom(a[1..] + t, a[0] == ':')
  {
    var s := a + t;
    assert s[0] == a[0];
    assert s[1..] == a[1..] + t;
    if |a| >= 2 {
      assert s[..2] == a[..2];
      PrefixOccurs(a, "//");
    }
  }

  /** The guard on every `//` carries over to the tail, with the first character as lookbehind. */
  lemma LineGuardTail(a: string, afterColon: bool)
    requires a != []
    requires forall i :: OccursAt(a, "//", i) ==> if i == 0 then afterColon else a[i - 1] == ':'
    ensures forall i :: OccursAt(a[1..], "//", i) ==> if i == 0 then a[0] == ':' else a[1..][i - 1] == ':'
  {
    forall i | OccursAt(a[1..], "//", i)
      ensures if i == 0 then a[0] == ':' else a[1..][i - 1] == ':'
    {
      OccursInTail(a, "//", i);
    }
  }

  /**
   * A line comment is removed up to, but not including, the newline that
   * ends it; the newline stays. The text before it may hold `/` and guarded
   * `//` (a closing tag, a URL), which are kept.
   */
  lemma LineCommentRemoved(a: string, c: string, b: string)
    requires forall i :: OccursAt(a, "//", i) ==> 0 < i && a[i - 1] == ':'
    requires a == [] || (a[|a| - 1] != ':' && a[|a| - 1] != '/')
    requires forall k :: 0 <= k < |c| ==> c[k] != '\n'
    ensures StripLineComments(a + "//" + c + "\n" + b) == a + "\n" + StripLineComments(b)
  {
    var t := "//" + c + "\n" + b;
    LineCommentLayout(a, c, b);
    LinePlainPrefixNoColon(a, t);
    LineCommentAtStart(c, b);
  }

  lemma LineCommentLayout(a: string, c: string, b: string)
    ensures a + "//" + c + "\n" + b == a + ("//" + c + "\n" + b)
    ensures forall x :: a + ("\n" + x) == a + "\n" + x
  {
  }

  /**
   * Text whose every `//` follows a colon, and which ends in neither a colon
   * nor `/`, is copied, and the scan after it starts afresh.
   */
  lemma LinePlainPrefixNoColon(a: string, t: string)
    requires forall i :: OccursAt(a, "//", i) ==> 0 < i && a[i - 1] == ':'
    requires a == [] || (a[|a| - 1] != ':' && a[|a| - 1] != '/')
    ensures StripLineCommentsFrom(a + t, false) == a + StripLineCommentsFrom(t, false)
  {
    LinePlainPrefix(a, t, false);
  }

  /** Unfolds the line-comment scan at a comment opening the text. */
  lemma LineCommentAtStart(c: string, b: string)
    requires forall k :: 0 <= k < |c| ==> c[k] != '\n'
    ensures StripLineCommentsFrom("//" + c + "\n" + b, false) == "\n" + StripLineCommentsFrom(b, false)
  {
    var t := "//" + c + "\n" + b;
    assert "//" <= t;
    forall i | 0 <= i < 2 + |c| ensures t[i] != '\n' {
      if i >= 2 { assert t[i] == c[i - 2]; }
    }
    assert t[2 + |c|] == '\n';
    var e := LineEnd(t);
    assert e == 2 + |c|;
    var u := t[e..];
    assert u == "\n" + b;
    assert u[1..] == b;
  }

  /**
   * A line comment on the last line, with no newline after it, is removed to
   * the end of the text.
   */
  lemma TrailingLineComment(a: string, c: string)
    requires forall i :: OccursAt(a, "//", i) ==> 0 < i && a[i - 1] == ':'
    requires a == [] || (a[|a| - 1] != ':' && a[|a| - 1] != '/')
    requires forall k :: 0 <= k < |c| ==> c[k] != '\n'
    ensures StripLineComments(a + "//" + c) == a
  {
    var t := "//" + c;
    assert a + "//" + c == a + t;
    forall k | 0 <= k < |t| ensures t[k] != '\n' {
      if k >= 2 { assert t[k] == c[k - 2]; }
    }
    LinePlainPrefixNoColon(a, t);
    LineCommentToEnd(t);
    assert a + [] == a;
  }

  /** Unfolds the line-comment scan at a comment that runs to the end of the text. */
  lemma LineCommentToEnd(t: string)
    requires "//" <= t
    requires forall k :: 0 <= k < |t| ==> t[k] != '\n'
    ensures StripLineCommentsFrom(t, false) == []
  {
    assert t[0] == '/';
    assert LineEnd(t) == |t|;
    assert t[|t|..] == [];
  }

  /** Removing line comments never removes a newline. */
  lemma {:induction false} LineStripKeepsNewlines(s: string, afterColon: bool)
    ensures Newlines(StripLineCommentsFrom(s, afterColon)) == Newlines(s)
    decreases |s|
  {
    if s == [] {
    } else if "//" <= s && !afterColon {
      assert s[0] == '/';
      var e := LineEnd(s);
      LineStripKeepsNewlines(s[e..], s[e - 1] == ':');
      assert s == s[..e] + s[e..];
      NewlinesAppend(s[..e], s[e..]);
      NewlinesNone(s[..e]);
    } else {
      LineStripKeepsNewlines(s[1..], s[0] == ':');
      NewlinesAppend([s[0]], StripLineCommentsFrom(s[1..], s[0] == ':'));
    }
  }

  /** Text with neither kind of comment opener comes through comment stripping unchanged. */
  lemma CommentFreeUnchanged(s: string)
    requires !Contains(s, "/*") && !Contains(s, "//")
    ensures StripComments(s) == s
  {
    BlockStripNoOpener(s);
    ColonGuard(s);
  }

  // ---------------------------------------------------------------------
  // If blocks
  // ---------------------------------------------------------------------

  /** One match of the if-block pattern: the tag, the whole matched text and the body. */
  datatype IfBlock = IfBlock(tag: string, whole: string, body: string)

  /**
   * The if-block pattern tried at the start of `s`: `[?if `, a word, `]`,
   * then the shortest body that is followed by `[?fi]`.
   */
  function MatchIfAt(s: string): (m: Option<IfBlock>)
    ensures m.Some? ==> m.value.whole <= s
    ensures m.Some? ==> IsWord(m.value.tag) && !Contains(m.value.body, "[?fi]")
    ensures m.Some? ==> m.value.whole == "[?if " + m.value.tag + "]" + m.value.body + "[?fi]"
  {
    if !("[?if " <= s) then None
    else
      var n := WordRun(s[5..]);
      if n == 0 || 5 + n >= |s| || s[5 + n] != ']' then None
      else match IndexOf(s, "[?fi]", 6 + n)
        case None => None
        case Some(k) =>
          NoneBetween(s, "[?fi]", 6 + n, k);
          IfBlockParts(s, n, k);
          Some(IfBlock(s[5..5 + n], s[..k + 5], s[6 + n..k]))
  }

  /** The pieces of a match laid out in the text. */
  lemma IfBlockParts(s: string, n: nat, k: nat)
    requires "[?if " <= s && 0 < n && 5 + n < |s| && s[5 + n] == ']'
    requires forall i :: 0 <= i < n ==> IsWordChar(s[5..][i])
    requires 6 + n <= k && OccursAt(s, "[?fi]", k)
    ensures IsWord(s[5..5 + n])
    ensures s[..k + 5] <= s
    ensures s[..k + 5] == "[?if " + s[5..5 + n] + "]" + s[6 + n..k] + "[?fi]"
  {
    WordRunIsWord(s[5..], n);
    assert s[5..][..n] == s[5..5 + n];
    IfBlockLayout(s, n, k);
  }

  lemma WordRunIsWord(t: string, n: nat)
    requires 0 < n <= |t| && forall i :: 0 <= i < n ==> IsWordChar(t[i])
    ensures IsWord(t[..n])
  {
    var w := t[..n];
    assert forall i :: 0 <= i < n ==> w[i] == t[i];
  }

  lemma IfBlockLayout(s: string, n: nat, k: nat)
    requires "[?if " <= s && 5 + n < |s| && s[5 + n] == ']'
    requires 6 + n <= k && OccursAt(s, "[?fi]", k)
    ensures s[..k + 5] == "[?if " + s[5..5 + n] + "]" + s[6 + n..k] + "[?fi]"
  {
    var a, b, c, d := s[..5 + n], s[..6 + n], s[..k], s[..k + 5];
    assert s[..5] == "[?if ";
    assert a == s[..5] + s[5..5 + n];
    assert b == a + s[5 + n..6 + n];
    assert s[5 + n..6 + n] == "]";
    assert c == b + s[6 + n..k];
    assert d == c + s[k..k + 5];
  }

  /**
   * All non-overlapping if-block matches, left to right; each match ends
   * where the scan for the next one starts.
   */
  function CollectIfBlocks(s: string): (bs: seq<IfBlock>)
    ensures forall i :: 0 <= i < |bs| ==> IsWord(bs[i].tag) && !Contains(bs[i].body, "[?fi]")
    ensures forall i :: 0 <= i < |bs| ==>
      bs[i].whole == "[?if " + bs[i].tag + "]" + bs[i].body + "[?fi]"
    decreases |s|
  {
    if s == [] then []
    else match MatchIfAt(s)
      case Some(b) => [b] + CollectIfBlocks(s[|b.whole|..])
      case None => CollectIfBlocks(s[1..])
  }

  /** Text without `[?if` holds no if block. */
  lemma {:induction false} NoIfOpenerNoBlocks(s: string)
    requires !Contains(s, "[?if")
    ensures CollectIfBlocks(s) == []
  {
    if s != [] {
      if "[?if " <= s {
        assert s[..4] == "[?if";
        assert OccursAt(s, "[?if", 0);
      }
      assert MatchIfAt(s).None?;
      ContainsTail(s, "[?if");
      NoIfOpenerNoBlocks(s[1..]);
    }
  }

  /**
   * The lazy body ends at the first `[?fi]`: a closer at `k` with none inside
   * `s[from..k]` is the first one from `from` on, since no proper suffix of
   * `[?fi]` is also a prefix of it.
   */
  lemma FirstCloser(s: string, from: nat, k: nat)
    requires from <= k && OccursAt(s, "[?fi]", k)
    requires !Contains(s[from..k], "[?fi]")
    ensures IndexOf(s, "[?fi]", from) == Some(k)
  {
    forall j | from <= j < k ensures !OccursAt(s, "[?fi]", j) {
      if j + 5 <= k {
        SliceOfSlice(s, from, k, j - from, 5);
        assert !OccursAt(s[from..k], "[?fi]", j - from);
      } else {
        assert s[k] == s[k..k + 5][0] == '[';
        if j + 5 <= |s| {
          assert s[j..j + 5][k - j] == s[k];
        }
      }
    }
    IndexOfIs(s, "[?fi]", from, k);
  }

  /**
   * A well-formed block at the start of the text is matched whole: the tag
   * is the full word, the body runs to the first `[?fi]`.
   */
  lemma MatchIfBlockAt(tag: string, body: string, rest: string)
    requires IsWord(tag) && !Contains(body, "[?fi]")
    ensures var whole := "[?if " + tag + "]" + body + "[?fi]";
      MatchIfAt(whole + rest) == Some(IfBlock(tag, whole, body))
  {
    var whole := "[?if " + tag + "]" + body + "[?fi]";
    var s := whole + rest;
    var n := |tag|;
    var k := 6 + n + |body|;
    IfBlockSlices(tag, body, rest);
    WordRunOf(tag, s[5 + n..]);
    FirstCloser(s, 6 + n, k);
  }

  /** Where the parts of a block sit in the text it opens. */
  lemma IfBlockSlices(tag: string, body: string, rest: string)
    ensures var whole := "[?if " + tag + "]" + body + "[?fi]";
      var s, n := whole + rest, |tag|;
      var k := 6 + n + |body|;
      "[?if " <= s && s[5..] == tag + s[5 + n..] && s[5 + n] == ']' && s[5 + n..] != [] &&
      s[5 + n..][0] == ']' && s[5..5 + n] == tag && s[6 + n..k] == body &&
      OccursAt(s, "[?fi]", k) && s[..k + 5] == whole
  {
    var whole := "[?if " + tag + "]" + body + "[?fi]";
    var s, n := whole + rest, |tag|;
    var k := 6 + n + |body|;
    assert s[..5] == "[?if ";
    assert s[5..] == tag + s[5 + n..];
    assert s[5..5 + n] == tag;
    assert s[6 + n..k] == body;
    assert s[k..k + 5] == "[?fi]";
    assert s[..k + 5] == whole;
  }

  /** The blocks found in a text that starts with a well-formed block. */
  lemma CollectLeadingBlock(tag: string, body: string, rest: string)
    requires IsWord(tag) && !Contains(body, "[?fi]")
    ensures var whole := "[?if " + tag + "]" + body + "[?fi]";
      CollectIfBlocks(whole + rest) == [IfBlock(tag, whole, body)] + CollectIfBlocks(rest)
  {
    var whole := "[?if " + tag + "]" + body + "[?fi]";
    MatchIfBlockAt(tag, body, rest);
    assert (whole + rest)[|whole|..] == rest;
  }

  /**
   * No `[?if` starts inside text free of it when a text that starts with
   * `[?if` follows: not even one straddling the join, since `[` does not
   * recur in `[?if`.
   */
  lemma IfOpenerNotBefore(a: string, t: string, j: int)
    requires !Contains(a, "[?if") && "[?if" <= t && 0 <= j < |a|
    ensures !OccursAt(a + t, "[?if", j)
    ensures j == 0 ==> !("[?if " <= a + t)
  {
    var s := a + t;
    if j + 4 <= |a| {
      assert s[j..j + 4] == a[j..j + 4];
      assert !OccursAt(a, "[?if", j);
      assert s[0..4] == a[0..4];
      assert !OccursAt(a, "[?if", 0);
    } else {
      assert s[|a|] == t[0] == '[';
      if j + 4 <= |s| { assert s[j..j + 4][|a| - j] == s[|a|]; }
    }
  }

  /** Text free of `[?if` in front of an opener holds no block and is skipped by the scan. */
  lemma {:induction false} CollectPlainPrefix(a: string, t: string)
    requires !Contains(a, "[?if") && "[?if" <= t
    ensures CollectIfBlocks(a + t) == CollectIfBlocks(t)
    decreases |a|
  {
    if a != [] {
      var s := a + t;
      IfOpenerNotBefore(a, t, 0);
      assert s[1..] == a[1..] + t;
      ContainsTail(a, "[?if");
      CollectPlainPrefix(a[1..], t);
    } else {
      assert a + t == t;
    }
  }

  /**
   * Two texts free of `[?if`, put together, are still free of it when no
   * `[?if` can straddle the join: the first has no `[` among its last three
   * characters, or the second does not start with `?`, `i` or `f`.
   */
  lemma IfOpenerFreeJoin(x: string, y: string)
    requires !Contains(x, "[?if") && !Contains(y, "[?if")
    requires (forall k :: 0 <= k < |x| && |x| - 3 <= k ==> x[k] != '[')
          || (y != [] && y[0] != '?' && y[0] != 'i' && y[0] != 'f')
    ensures !Contains(x + y, "[?if")
  {
    var s := x + y;
    forall j | 0 <= j && j + 4 <= |s| ensures !OccursAt(s, "[?if", j) {
      if j + 4 <= |x| {
        assert s[j..j + 4] == x[j..j + 4];
        assert !OccursAt(x, "[?if", j);
      } else if j >= |x| {
        assert s[j..j + 4] == y[j - |x|..j - |x| + 4];
        assert !OccursAt(y, "[?if", j - |x|);
      } else if forall k :: 0 <= k < |x| && |x| - 3 <= k ==> x[k] != '[' {
        assert s[j..j + 4][0] == x[j];
      } else {
        assert s[j..j + 4][|x| - j] == y[0];
      }
    }
  }

  /** Text without `[` holds no `[?if`. */
  lemma NoBracketNoIfOpener(x: string)
    requires forall k :: 0 <= k < |x| ==> x[k] != '['
    ensures !Contains(x, "[?if")
  {
    forall j | 0 <= j ensures !OccursAt(x, "[?if", j) {
      if j + 4 <= |x| { assert x[j..j + 4][0] == x[j]; }
    }
  }

  /** The text after the `[` of a block holds no `[?if` when its body and what follows hold none. */
  lemma IfOpenerOnlyAtFront(tag: string, body: string, e: string)
    requires IsWord(tag) && !Contains(body, "[?if") && !Contains(e, "[?if")
    ensures var w := "[?if " + tag + "]" + body + "[?fi]";
      !Contains((w + e)[1..], "[?if")
  {
    var w := "[?if " + tag + "]" + body + "[?fi]";
    var head := "?if " + tag + "]";
    var closer := "[?fi]";
    assert forall k :: 0 <= k < |head| ==> head[k] != '[' by {
      forall k | 0 <= k < |head| ensures head[k] != '[' {
        if 4 <= k < 4 + |tag| { assert head[k] == tag[k - 4]; }
      }
    }
    NoBracketNoIfOpener(head);
    forall j | 0 <= j ensures !OccursAt(closer, "[?if", j) {
      if j == 0 {
        assert closer[0..4] == "[?fi";
      } else if j == 1 {
        assert closer[1..5][0] == '?';
      }
    }
    IfOpenerFreeJoin(closer, e);
    IfOpenerFreeJoin(body, closer + e);
    IfOpenerFreeJoin(head, body + (closer + e));
    assert (w + e)[1..] == head + (body + (closer + e));
  }

  /** The text of a block: `[?if `, the tag, `]`, the body and `[?fi]`. */
  function BlockText(tag: string, body: string): (w: string)
    ensures "[?if" <= w
  {
    "[?if " + tag + "]" + body + "[?fi]"
  }

  /** Text free of `[?if` followed by a well-formed block: that block is the first match. */
  lemma CollectBlockAfter(a: string, tag: string, body: string, rest: string)
    requires IsWord(tag) && !Contains(body, "[?fi]") && !Contains(a, "[?if")
    ensures CollectIfBlocks(a + BlockText(tag, body) + rest)
         == [IfBlock(tag, BlockText(tag, body), body)] + CollectIfBlocks(rest)
  {
    var w := BlockText(tag, body);
    var t := w + rest;
    assert a + w + rest == a + t;
    assert t[..4] == w[..4];
    CollectPlainPrefix(a, t);
    CollectLeadingBlock(tag, body, rest);
  }

  /**
   * Two well-formed blocks that start at the same place, with any text after
   * each, are the same block: the match there is unique.
   */
  lemma SameBlock(t1: string, b1: string, x: string, t2: string, b2: string, y: string)
    requires IsWord(t1) && !Contains(b1, "[?fi]") && IsWord(t2) && !Contains(b2, "[?fi]")
    requires BlockText(t1, b1) + x == BlockText(t2, b2) + y
    ensures t1 == t2 && b1 == b2
  {
    MatchIfBlockAt(t1, b1, x);
    MatchIfBlockAt(t2, b2, y);
  }

  /**
   * A block, put between texts free of `[?if` and with a body free of it,
   * holds the only `[?if` of the whole, at its own start.
   */
  lemma IfOpenerOnlyAtBlock(c: string, tag: string, body: string, e: string, j: int)
    requires !Contains(c, "[?if") && !Contains(e, "[?if")
    requires IsWord(tag) && !Contains(body, "[?if")
    requires 0 <= j && j != |c|
    ensures !OccursAt(c + BlockText(tag, body) + e, "[?if", j)
  {
    var w := BlockText(tag, body);
    var u := c + w + e;
    assert u == c + (w + e);
    if j < |c| {
      IfOpenerNotBefore(c, w + e, j);
    } else if j + 4 <= |u| {
      IfOpenerOnlyAtFront(tag, body, e);
      var k := j - |c| - 1;
      assert u[j..j + 4] == (w + e)[1..][k..k + 4];
      assert !OccursAt((w + e)[1..], "[?if", k);
    }
  }

  /**
   * A block other than `w2` does not occur in `c + w2 + e` when `c`, `e` and
   * the body of `w2` are free of `[?if`.
   */
  lemma OtherBlockAbsent(t1: string, b1: string, c: string, t2: string, b2: string, e: string)
    requires IsWord(t1) && !Contains(b1, "[?fi]") && IsWord(t2) && !Contains(b2, "[?fi]")
    requires !Contains(c, "[?if") && !Contains(e, "[?if") && !Contains(b2, "[?if")
    requires BlockText(t1, b1) != BlockText(t2, b2)
    ensures !Contains(c + BlockText(t2, b2) + e, BlockText(t1, b1))
  {
    var w1, w2 := BlockText(t1, b1), BlockText(t2, b2);
    var u := c + w2 + e;
    forall j | 0 <= j ensures !OccursAt(u, w1, j) {
      if j == |c| {
        if OccursAt(u, w1, j) {
          assert u[|c|..] == w2 + e;
          assert (w2 + e)[..|w1|] == w1;
          SameBlock(t1, b1, (w2 + e)[|w1|..], t2, b2, e);
        }
      } else {
        IfOpenerOnlyAtBlock(c, t2, b2, e, j);
        if OccursAt(u, w1, j) { OccursPrefixOf(u, "[?if", w1, j); }
      }
    }
  }

  // ---------------------------------------------------------------------
  // Leftover tags
  // ---------------------------------------------------------------------

  /** Deletes every `[@` word `]` left in the text, scanning left to right. */
  function StripLeftoverTags(s: string): (r: string)
    ensures |r| <= |s|
    decreases |s|
  {
    if s == [] then []
    else if "[@" <= s then
      var n := WordRun(s[2..]);
      if n > 0 && 2 + n < |s| && s[2 + n] == ']' then StripLeftoverTags(s[3 + n..])
      else [s[0]] + StripLeftoverTags(s[1..])
    else [s[0]] + StripLeftoverTags(s[1..])
  }

  /** Text without `[@` passes the leftover-tag pattern unchanged. */
  lemma {:induction false} TagStripNoOpener(s: string)
    requires !Contains(s, "[@")
    ensures StripLeftoverTags(s) == s
  {
    if s != [] {
      PrefixOccurs(s, "[@");
      ContainsTail(s, "[@");
      TagStripNoOpener(s[1..]);
    }
  }

  /** Unfolds the leftover-tag scan at a tag opening the text. */
  lemma TagAtStart(w: string, b: string)
    requires IsWord(w)
    ensures StripLeftoverTags("[@" + w + "]" + b) == StripLeftoverTags(b)
  {
    var s := "[@" + w + "]" + b;
    assert s[..2] == "[@";
    assert s[2..] == w + s[2 + |w|..];
    assert s[2 + |w|] == ']';
    WordRunOf(w, s[2 + |w|..]);
    assert s[3 + |w|..] == b;
  }

  /** A leftover tag `[@` word `]` starts at index `i` of `s`. */
  predicate TagAt(s: string, i: int)
  {
    OccursAt(s, "[@", i) &&
    var n := WordRun(s[i + 2..]);
    n > 0 && i + 2 + n < |s| && s[i + 2 + n] == ']'
  }

  /** No leftover tag starts anywhere in `s`. */
  predicate TagFree(s: string)
  {
    forall i :: 0 <= i < |s| ==> !TagAt(s, i)
  }

  /** A word run stops where a character that is not a word character begins. */
  lemma {:induction false} WordRunAppend(x: string, y: string)
    requires y != [] && !IsWordChar(y[0])
    ensures WordRun(x + y) == WordRun(x)
    decreases |x|
  {
    if x == [] {
      assert x + y == y;
    } else {
      assert (x + y)[1..] == x[1..] + y;
      WordRunAppend(x[1..], y);
    }
  }

  /** Tags in the tail of a text are the tags of the text, shifted by one. */
  lemma TagAtTail(a: string, i: int)
    requires a != [] && 0 <= i
    ensures TagAt(a[1..], i) <==> TagAt(a, i + 1)
  {
    if i + 2 <= |a| - 1 {
      assert a[1..][i..i + 2] == a[i + 1..i + 3];
      assert a[1..][i + 2..] == a[i + 3..];
    }
  }

  /**
   * A text with no tag at its front still has none there once more text
   * beginning with `[@` follows it: a word run cannot reach across the `[`.
   */
  lemma TagNotAtFront(a: string, t: string)
    requires a != [] && !TagAt(a, 0) && "[@" <= t
    ensures !TagAt(a + t, 0)
  {
    var s := a + t;
    if |a| == 1 {
      assert s[1] == t[0];
    } else if OccursAt(s, "[@", 0) {
      assert s[0..2] == a[0..2];
      assert s[2..] == a[2..] + t;
      WordRunAppend(a[2..], t);
      var n := WordRun(a[2..]);
      if 2 + n < |a| {
        assert s[2 + n] == a[2 + n];
      } else {
        assert s[2 + n] == t[0];
      }
    }
  }

  /** Unfolds the leftover-tag scan at a character that does not open a tag. */
  lemma TagPlainChar(s: string)
    requires s != [] && !TagAt(s, 0)
    ensures StripLeftoverTags(s) == [s[0]] + StripLeftoverTags(s[1..])
  {
    PrefixOccurs(s, "[@");
  }

  /** The first character of a text without tags is copied, whatever follows. */
  lemma TagFrontPlain(a: string, t: string)
    requires a != [] && TagFree(a) && "[@" <= t
    ensures StripLeftoverTags(a + t) == [a[0]] + StripLeftoverTags(a[1..] + t)
  {
    assert !TagAt(a, 0);
    var s := a + t;
    assert s[1..] == a[1..] + t;
    TagNotAtFront(a, t);
    TagPlainChar(s);
  }

  /** The tail of a text without tags has none either. */
  lemma TagFreeTail(a: string)
    requires a != [] && TagFree(a)
    ensures TagFree(a[1..])
  {
    forall i | 0 <= i < |a| - 1 ensures !TagAt(a[1..], i) {
      TagAtTail(a, i);
    }
  }

  /**
   * Text holding no tag (though perhaps a stray `[@`) in front of a tag
   * opener is copied unchanged.
   */
  lemma {:induction false} TagPlainPrefix(a: string, t: string)
    requires TagFree(a) && "[@" <= t
    ensures StripLeftoverTags(a + t) == a + StripLeftoverTags(t)
    decreases |a|
  {
    if a == [] {
      assert a + t == t;
    } else {
      TagFrontPlain(a, t);
      TagFreeTail(a);
      TagPlainPrefix(a[1..], t);
      var x := StripLeftoverTags(t);
      ConsAppend(a, x);
    }
  }

  /**
   * Each leftover tag `[@w]` is deleted, with the text before it kept
   * verbatim, whatever stray `[@` (not followed by a word and `]`) that text
   * holds.
   */
  lemma TagDeleted(a: string, w: string, b: string)
    requires TagFree(a) && IsWord(w)
    ensures StripLeftoverTags(a + "[@" + w + "]" + b) == a + StripLeftoverTags(b)
  {
    var t := "[@" + w + "]" + b;
    assert a + "[@" + w + "]" + b == a + t;
    assert t[..2] == "[@";
    TagPlainPrefix(a, t);
    TagAtStart(w, b);
  }
}

=== FILE: strings.dfy ===
/**
 * Plain string search and replacement, as PHP's `str_replace` performs it:
 * occurrences are found left to right, do not overlap, and text that a
 * replacement inserts is never searched again.
 */
module Strings {

  datatype Option<T> = None | Some(value: T)

  /** `pat` occurs in `s` starting at index `i`. */
  predicate OccursAt(s: string, pat: string, i: int)
  {
    0 <= i && i + |pat| <= |s| && s[i..i + |pat|] == pat
  }

  /** `pat` occurs somewhere in `s`. */
  ghost predicate Contains(s: string, pat: string)
  {
    exists i :: OccursAt(s, pat, i)
  }

  /** The first index at or after `from` where `pat` occurs in `s`. */
  function IndexOf(s: string, pat: string, from: nat): (r: Option<nat>)
    ensures r.Some? ==> from <= r.value && OccursAt(s, pat, r.value)
    ensures r.Some? ==> forall j :: from <= j < r.value ==> !OccursAt(s, pat, j)
    ensures r.None? ==> forall j :: from <= j ==> !OccursAt(s, pat, j)
    decreases |s| - from
  {
    if from + |pat| > |s| then None
    else if s[from..from + |pat|] == pat then Some(from)
    else IndexOf(s, pat, from + 1)
  }

  /**
   * str_replace(pat, rep, s): every leftmost, non-overlapping occurrence of
   * `pat` is replaced by `rep`. An empty `pat` leaves `s` unchanged.
   */
  function ReplaceAll(s: string, pat: string, rep: string): string
    decreases |s|
  {
    if pat == [] || s == [] then s
    else if pat <= s then rep + ReplaceAll(s[|pat|..], pat, rep)
    else [s[0]] + ReplaceAll(s[1..], pat, rep)
  }

  /**
   * Reference definition of the pieces of `s` between the leftmost
   * non-overlapping occurrences of `sep` (what PHP's `explode` returns).
   */
  function Split(s: string, sep: string): (parts: seq<string>)
    requires sep != []
    ensures |parts| >= 1
    decreases |s|
  {
    var r := IndexOf(s, sep, 0);
    if r.None? then [s]
    else
      var i := r.value;
      [s[..i]] + Split(s[i + |sep|..], sep)
  }

  /** No piece of a split contains the separator. */
  lemma {:induction false} SplitPiecesFree(s: string, sep: string)
    requires sep != []
    ensures forall k :: 0 <= k < |Split(s, sep)| ==> !Contains(Split(s, sep)[k], sep)
    decreases |s|
  {
    var r := IndexOf(s, sep, 0);
    if r.None? {
      SplitNone(s, sep);
      assert !Contains(s, sep);
    } else {
      var i := r.value;
      var rest := s[i + |sep|..];
      SplitStep(s, sep, i);
      NoneBetween(s, sep, 0, i);
      assert s[0..i] == s[..i];
      SplitPiecesFree(rest, sep);
      var parts := Split(s, sep);
      forall k | 0 <= k < |parts| ensures !Contains(parts[k], sep) {
        if k > 0 { assert parts[k] == Split(rest, sep)[k - 1]; }
      }
    }
  }

  /** The pieces glued together with `glue` between neighbours (PHP's `implode`). */
  function Join(parts: seq<string>, glue: string): string
  {
    if parts == [] then ""
    else if |parts| == 1 then parts[0]
    else parts[0] + glue + Join(parts[1..], glue)
  }

  /** Putting the first character back in front of the rest. */
  lemma ConsAppend(a: string, x: string)
    requires a != []
    ensures [a[0]] + (a[1..] + x) == a + x
  {
  }

  /** Empty ends add nothing. */
  lemma Padded<T>(x: seq<T>, y: seq<T>, z: seq<T>)
    ensures [] + x + y + z + [] == x + y + z
  {
  }

  /** Regrouping the last three pieces of a concatenation. */
  lemma RegroupTail(p: string, x: string, y: string, z: string)
    ensures p + x + y + z == p + (x + y + z)
  {
  }

  lemma OccursInTail(s: string, pat: string, j: int)
    requires |s| > 0 && OccursAt(s[1..], pat, j)
    ensures OccursAt(s, pat, j + 1)
  {
    assert s[1..][j..j + |pat|] == s[j + 1..j + 1 + |pat|];
  }

  /** A pattern that starts with `prefix` can only occur where `prefix` does. */
  lemma OccursPrefixOf(s: string, prefix: string, pat: string, i: int)
    requires prefix <= pat && OccursAt(s, pat, i)
    ensures OccursAt(s, prefix, i)
  {
    assert s[i..i + |prefix|] == s[i..i + |pat|][..|prefix|];
  }

  /** Being a prefix is occurring at index 0. */
  lemma PrefixOccurs(s: string, p: string)
    ensures p <= s <==> OccursAt(s, p, 0)
  {
    if OccursAt(s, p, 0) { assert s[..|p|] == s[0..|p|]; }
  }

  lemma ContainsTail(s: string, p: string)
    requires |s| > 0
    ensures Contains(s[1..], p) ==> Contains(s, p)
  {
    if Contains(s[1..], p) {
      var j :| OccursAt(s[1..], p, j);
      OccursInTail(s, p, j);
    }
  }

  lemma ContainsPrefix(x: string, y: string, p: string)
    ensures Contains(x, p) ==> Contains(x + y, p)
  {
    if Contains(x, p) {
      var i :| OccursAt(x, p, i);
      assert (x + y)[i..i + |p|] == x[i..i + |p|];
      assert OccursAt(x + y, p, i);
    }
  }

  lemma SliceOfSlice(s: string, from: nat, k: nat, j: int, m: nat)
    requires from <= k <= |s| && 0 <= j && j + m <= k - from
    ensures s[from..k][j..j + m] == s[from + j..from + j + m]
  {
    var u, v := s[from..k][j..j + m], s[from + j..from + j + m];
    assert forall i :: 0 <= i < m ==> u[i] == v[i];
  }

  /** No occurrence starts in [from, k) of `s`, so none lies inside `s[from..k]`. */
  lemma NoneBetween(s: string, pat: string, from: nat, k: nat)
    requires pat != [] && from <= k <= |s|
    requires forall j :: from <= j < k ==> !OccursAt(s, pat, j)
    ensures !Contains(s[from..k], pat)
  {
    forall j | OccursAt(s[from..k], pat, j) ensures false {
      SliceOfSlice(s, from, k, j, |pat|);
      assert OccursAt(s, pat, from + j);
    }
  }

  /** Pins down IndexOf from a known first occurrence. */
  lemma IndexOfIs(s: string, pat: string, from: nat, k: nat)
    requires from <= k && OccursAt(s, pat, k)
    requires forall j :: from <= j < k ==> !OccursAt(s, pat, j)
    ensures IndexOf(s, pat, from) == Some(k)
  {
  }

  /** Replacement copies text up to the first `n` characters when no occurrence starts there. */
  lemma {:induction false} ReplaceAllSkip(s: string, pat: string, rep: string, n: nat)
    requires pat != [] && n <= |s|
    requires forall j :: 0 <= j < n ==> !OccursAt(s, pat, j)
    ensures ReplaceAll(s, pat, rep) == s[..n] + ReplaceAll(s[n..], pat, rep)
  {
    if n > 0 {
      assert !OccursAt(s, pat, 0);
      forall j | 0 <= j < n - 1 ensures !OccursAt(s[1..], pat, j) {
        if OccursAt(s[1..], pat, j) { OccursInTail(s, pat, j); }
      }
      ReplaceAllSkip(s[1..], pat, rep, n - 1);
      var a, x := s[..n], ReplaceAll(s[n..], pat, rep);
      assert s[1..][..n - 1] == a[1..];
      assert s[1..][n - 1..] == s[n..];
      ConsAppend(a, x);
    }
  }

  /** One step of str_replace: copy up to the first occurrence, emit `rep`, go on after it. */
  lemma ReplaceAllStep(s: string, pat: string, rep: string, i: nat)
    requires pat != [] && OccursAt(s, pat, i)
    requires forall j :: 0 <= j < i ==> !OccursAt(s, pat, j)
    ensures ReplaceAll(s, pat, rep) == s[..i] + rep + ReplaceAll(s[i + |pat|..], pat, rep)
  {
    ReplaceAllSkip(s, pat, rep, i);
    ReplaceAllAt(s, pat, rep, i);
    var a, x := s[..i], ReplaceAll(s[i + |pat|..], pat, rep);
    assert a + (rep + x) == a + rep + x;
  }

  /** An occurrence at the start of what is left is replaced whole. */
  lemma ReplaceAllAt(s: string, pat: string, rep: string, i: nat)
    requires pat != [] && OccursAt(s, pat, i)
    ensures ReplaceAll(s[i..], pat, rep) == rep + ReplaceAll(s[i + |pat|..], pat, rep)
  {
    var t := s[i..];
    var u := t[..|pat|];
    assert forall k :: 0 <= k < |pat| ==> u[k] == s[i..i + |pat|][k];
    assert pat <= t;
    assert t[|pat|..] == s[i + |pat|..];
  }

  /** An occurrence at the very end, and none before it, is the only one replaced. */
  lemma ReplaceAtEnd(p: string, pat: string, rep: string)
    requires pat != []
    requires forall j :: 0 <= j < |p| ==> !OccursAt(p + pat, pat, j)
    ensures ReplaceAll(p + pat, pat, rep) == p + rep
  {
    var s := p + pat;
    assert s[|p|..|p| + |pat|] == pat;
    ReplaceAllStep(s, pat, rep, |p|);
    assert s[..|p|] == p && s[|p| + |pat|..] == [];
  }

  /** With no occurrence, str_replace copies the text. */
  lemma ReplaceAllNone(s: string, pat: string, rep: string)
    requires pat != [] && IndexOf(s, pat, 0).None?
    ensures ReplaceAll(s, pat, rep) == s
  {
    ReplaceAllSkip(s, pat, rep, |s|);
    assert s[..|s|] == s;
  }

  /** Replacement is the identity on text where the pattern does not occur. */
  lemma {:induction false} ReplaceAllAbsent(s: string, pat: string, rep: string)
    requires !Contains(s, pat)
    ensures ReplaceAll(s, pat, rep) == s
  {
    assert OccursAt(s, [], 0);
    assert pat != [];
    ReplaceAllSkip(s, pat, rep, |s|);
    assert s[..|s|] == s;
  }

  /** A string that is exactly the pattern becomes exactly the replacement. */
  lemma ReplaceAllWhole(pat: string, rep: string)
    requires pat != []
    ensures ReplaceAll(pat, pat, rep) == rep
  {
    assert pat[|pat|..] == [];
  }

  /** Split, one occurrence at a time. */
  lemma SplitStep(s: string, sep: string, i: nat)
    requires sep != [] && OccursAt(s, sep, i)
    requires forall j :: 0 <= j < i ==> !OccursAt(s, sep, j)
    ensures Split(s, sep) == [s[..i]] + Split(s[i + |sep|..], sep)
  {
    IndexOfIs(s, sep, 0, i);
  }

  /** Join, one piece at a time. */
  lemma JoinStep(a: string, rest: seq<string>, glue: string)
    requires |rest| >= 1
    ensures Join([a] + rest, glue) == a + glue + Join(rest, glue)
  {
    assert ([a] + rest)[1..] == rest;
  }

  /** The text around an occurrence of `sep`. */
  lemma SplitLayout(s: string, sep: string, i: nat)
    requires OccursAt(s, sep, i)
    ensures s == s[..i] + sep + s[i + |sep|..]
  {
    assert s[..i + |sep|] == s[..i] + s[i..i + |sep|];
    assert s == s[..i + |sep|] + s[i + |sep|..];
  }

  /** Splitting at `sep` and gluing back with `sep` gives the original text. */
  lemma {:induction false} SplitJoin(s: string, sep: string)
    requires sep != []
    ensures Join(Split(s, sep), sep) == s
    decreases |s|
  {
    var r := IndexOf(s, sep, 0);
    if r.Some? {
      var i := r.value;
      var rest := s[i + |sep|..];
      SplitJoin(rest, sep);
      SplitStep(s, sep, i);
      JoinStep(s[..i], Split(rest, sep), sep);
      SplitLayout(s, sep, i);
    } else {
      SplitNone(s, sep);
    }
  }

  /**
   * str_replace agrees with the reference definition: the text between the
   * leftmost non-overlapping occurrences is kept verbatim and each occurrence
   * becomes `rep`, verbatim.
   */
  lemma {:induction false} ReplaceAllIsSplitJoin(s: string, pat: string, rep: string)
    requires pat != []
    ensures ReplaceAll(s, pat, rep) == Join(Split(s, pat), rep)
    decreases |s|
  {
    var r := IndexOf(s, pat, 0);
    if r.Some? {
      var i := r.value;
      var rest := s[i + |pat|..];
      ReplaceAllStep(s, pat, rep, i);
      ReplaceAllIsSplitJoin(rest, pat, rep);
      SplitStep(s, pat, i);
      JoinStep(s[..i], Split(rest, pat), rep);
    } else {
      ReplaceAllNone(s, pat, rep);
      SplitNone(s, pat);
    }
  }

  /** Text without the separator splits into itself alone. */
  lemma SplitNone(s: string, sep: string)
    requires sep != [] && IndexOf(s, sep, 0).None?
    ensures Split(s, sep) == [s]
  {
  }
}

=== FILE: table.dfy ===
/**
 * The template's `values`: a PHP array from tag name to value, which keeps
 * its keys unique and iterates them in the order they were first set.
 */
module Table {
  import opened Strings

  /** Entries in iteration order. */
  type Entries = seq<(string, string)>

  /** No key appears twice, as in every PHP array. */
  predicate KeysUnique(vs: Entries)
  {
    forall i, j :: 0 <= i < j < |vs| ==> vs[i].0 != vs[j].0
  }

  /** The keys, in iteration order. */
  function Keys(vs: Entries): (ks: seq<string>)
    ensures |ks| == |vs| && forall i :: 0 <= i < |vs| ==> ks[i] == vs[i].0
  {
    if vs == [] then [] else [vs[0].0] + Keys(vs[1..])
  }

  /** `$values[$key]` when the key is set. */
  function Lookup(vs: Entries, key: string): (r: Option<string>)
    ensures r.Some? ==> (key, r.value) in vs
    ensures r.None? <==> key !in Keys(vs)
  {
    if vs == [] then None
    else if vs[0].0 == key then Some(vs[0].1)
    else Lookup(vs[1..], key)
  }

  /**
   * `$values[$key] = $value`: an existing key keeps its place and takes the
   * new value; a new key is appended at the end.
   */
  function Assign(vs: Entries, key: string, value: string): Entries
  {
    if vs == [] then [(key, value)]
    else if vs[0].0 == key then [(key, value)] + vs[1..]
    else [vs[0]] + Assign(vs[1..], key, value)
  }

  /** After an assignment the key reads back its new value and every other key reads as before. */
  lemma {:induction false} AssignLookup(vs: Entries, key: string, value: string, k: string)
    ensures Lookup(Assign(vs, key, value), k) == if k == key then Some(value) else Lookup(vs, k)
  {
    if vs != [] && vs[0].0 != key {
      var r := Assign(vs, key, value);
      assert r[0] == vs[0] && r[1..] == Assign(vs[1..], key, value);
      AssignLookup(vs[1..], key, value, k);
    }
  }

  /**
   * Assigning never reorders keys: re-setting a key leaves the key sequence
   * as it was (no second entry), a new key goes last.
   */
  lemma {:induction false} AssignKeys(vs: Entries, key: string, value: string)
    ensures Keys(Assign(vs, key, value)) == if key in Keys(vs) then Keys(vs) else Keys(vs) + [key]
    ensures key !in Keys(vs) ==> Assign(vs, key, value) == vs + [(key, value)]
  {
    if vs == [] {
      assert Keys([(key, value)]) == [key];
    } else {
      KeysCons(vs[0], vs[1..]);
      assert vs == [vs[0]] + vs[1..];
      if vs[0].0 == key {
        KeysCons((key, value), vs[1..]);
      } else {
        var rest := Assign(vs[1..], key, value);
        AssignKeys(vs[1..], key, value);
        KeysCons(vs[0], rest);
        assert (key in Keys(vs)) == (key in Keys(vs[1..]));
      }
    }
  }

  /** Assigning keeps the keys unique. */
  lemma AssignUnique(vs: Entries, key: string, value: string)
    requires KeysUnique(vs)
    ensures KeysUnique(Assign(vs, key, value))
  {
    var r := Assign(vs, key, value);
    AssignKeys(vs, key, value);
    var kr, kv := Keys(r), Keys(vs);
    forall i, j | 0 <= i < j < |r| ensures r[i].0 != r[j].0 {
      assert kr[i] == r[i].0 && kr[j] == r[j].0;
      if key in kv {
        assert kv[i] == vs[i].0 && kv[j] == vs[j].0;
      } else if j < |vs| {
        assert kv[i] == vs[i].0 && kv[j] == vs[j].0;
      } else {
        assert kv[i] == vs[i].0;
      }
    }
  }

  /** Everything an assignment promises, in one place. */
  lemma AssignFacts(vs: Entries, key: string, value: string)
    requires KeysUnique(vs)
    ensures KeysUnique(Assign(vs, key, value))
    ensures Lookup(Assign(vs, key, value), key) == Some(value)
    ensures forall k :: k != key ==> Lookup(Assign(vs, key, value), k) == Lookup(vs, k)
    ensures key in Keys(vs) ==> Keys(Assign(vs, key, value)) == Keys(vs)
    ensures key !in Keys(vs) ==> Assign(vs, key, value) == vs + [(key, value)]
  {
    AssignUnique(vs, key, value);
    AssignKeys(vs, key, value);
    forall k ensures Lookup(Assign(vs, key, value), k) == if k == key then Some(value) else Lookup(vs, k) {
      AssignLookup(vs, key, value, k);
    }
  }

  lemma KeysCons(x: (string, string), vs: Entries)
    ensures Keys([x] + vs) == [x.0] + Keys(vs)
  {
    var l, r := Keys([x] + vs), [x.0] + Keys(vs);
    assert forall i :: 0 <= i < |l| ==> l[i] == r[i];
  }

  /** With unique keys, an entry in the table is what a lookup returns. */
  lemma {:induction false} LookupEntry(vs: Entries, key: string, value: string)
    requires KeysUnique(vs) && (key, value) in vs
    ensures Lookup(vs, key) == Some(value)
  {
    if vs[0] != (key, value) {
      assert vs[0].0 != key by {
        var i :| 0 <= i < |vs| && vs[i] == (key, value);
        assert i != 0;
      }
      assert (key, value) in vs[1..] by {
        var i :| 0 <= i < |vs| && vs[i] == (key, value);
        assert vs[1..][i - 1] == vs[i];
      }
      LookupEntry(vs[1..], key, value);
    }
  }
}

=== FILE: templates.dfy ===
/**
 * The template engine: a `Template` bound to one file under a root
 * directory, the values it substitutes for `[@tag]` tags, the text pipeline
 * that renders it, and `Merge`, which renders several templates one after
 * another.
 */
module Templates {
  import opened Strings
  import opened Patterns
  import opened Table

  /** The files the renderer can read: every existing path and its contents. */
  type FileSystem = map<string, string>

  /** What `Merge` emits for an item that is not a template. */
  const TypeError: string := "Error, incorrect type - expected Template."

  /** What rendering emits, in place of the text, when the template file does not exist. */
  function LoadError(file: string): string
  {
    "Error loading template file (" + file + ").<br />"
  }

  /**
   * `strcmp($values[$tag], '')` is non-zero: the tag is set to a string other
   * than "" ("0" included). A missing key reads as null, which compares
   * equal to "".
   */
  predicate IsTruthy(vs: Entries, tag: string)
  {
    match Lookup(vs, tag)
    case None => false
    case Some(v) => v != ""
  }

  /**
   * The loop over the collected if blocks: in match order, every occurrence
   * of a block's whole text is replaced by its body when the tag is truthy
   * and by nothing otherwise.
   */
  function ApplyIfBlocks(s: string, bs: seq<IfBlock>, vs: Entries): string
    decreases |bs|
  {
    if bs == [] then s
    else
      var b := bs[|bs| - 1];
      ReplaceAll(ApplyIfBlocks(s, bs[..|bs| - 1], vs), b.whole, if IsTruthy(vs, b.tag) then b.body else "")
  }

  /** Applying one more block acts on the text the earlier blocks left. */
  lemma ApplyIfBlocksStep(s: string, bs: seq<IfBlock>, i: nat, vs: Entries)
    requires i < |bs|
    ensures ApplyIfBlocks(s, bs[..i + 1], vs)
         == ReplaceAll(ApplyIfBlocks(s, bs[..i], vs), bs[i].whole, if IsTruthy(vs, bs[i].tag) then bs[i].body else "")
  {
    assert bs[..i + 1][..i] == bs[..i];
  }

  /** Conditional resolution: blocks are collected once, then replaced one by one. */
  function ResolveIfBlocks(s: string, vs: Entries): string
  {
    ApplyIfBlocks(s, CollectIfBlocks(s), vs)
  }

  /** The literal tag a key stands for. */
  function TagFor(key: string): string
  {
    "[@" + key + "]"
  }

  /** The loop over the values: each key's tag replaced by its value, in the table's order. */
  function SubstituteTags(s: string, vs: Entries): string
    decreases |vs|
  {
    if vs == [] then s
    else
      var (key, value) := vs[|vs| - 1];
      ReplaceAll(SubstituteTags(s, vs[..|vs| - 1]), TagFor(key), value)
  }

  /** Substituting one more key acts on the text the earlier keys left. */
  lemma SubstituteTagsStep(s: string, vs: Entries, j: nat)
    requires j < |vs|
    ensures SubstituteTags(s, vs[..j + 1]) == ReplaceAll(SubstituteTags(s, vs[..j]), TagFor(vs[j].0), vs[j].1)
  {
    assert vs[..j + 1][..j] == vs[..j];
  }

  /** The text `output()` returns for a template file `file` under `rootdir`. */
  function Render(rootdir: string, file: string, vs: Entries, fs: FileSystem): string
  {
    var path := rootdir + file;
    if path !in fs then LoadError(file)
    else StripLeftoverTags(SubstituteTags(ResolveIfBlocks(StripComments(fs[path]), vs), vs))
  }

  /**
   * A lone block `[?if T]body[?fi]` becomes its body exactly when T is set to
   * a non-empty string, and disappears when T is unset or set to "".
   */
  lemma ResolveSingleBlock(tag: string, body: string, vs: Entries)
    requires IsWord(tag) && !Contains(body, "[?fi]")
    ensures ResolveIfBlocks("[?if " + tag + "]" + body + "[?fi]", vs)
         == if Lookup(vs, tag).Some? && Lookup(vs, tag).value != "" then body else ""
  {
    var whole := "[?if " + tag + "]" + body + "[?fi]";
    var block := IfBlock(tag, whole, body);
    CollectLeadingBlock(tag, body, "");
    assert whole + "" == whole;
    assert CollectIfBlocks(whole) == [block];
    ApplyOneBlock(whole, block, vs);
    ReplaceAllWhole(whole, if IsTruthy(vs, tag) then body else "");
  }

  lemma ApplyOneBlock(s: string, b: IfBlock, vs: Entries)
    ensures ApplyIfBlocks(s, [b], vs) == ReplaceAll(s, b.whole, if IsTruthy(vs, b.tag) then b.body else "")
  {
    assert [b][..0] == [];
  }

  /**
   * A text starting with `[?if` occurs nowhere in a text free of `[?if` put
   * in front of it: str_replace copies that text and replaces the block
   * first.
   */
  lemma ReplaceBlockFront(a: string, w: string, x: string, r: string)
    requires "[?if" <= w && !Contains(a, "[?if")
    ensures ReplaceAll(a + w + x, w, r) == a + r + ReplaceAll(x, w, r)
  {
    var t := w + x;
    var s := a + t;
    assert a + w + x == s;
    assert t[..4] == w[..4];
    forall j | 0 <= j < |a| ensures !OccursAt(s, w, j) {
      IfOpenerNotBefore(a, t, j);
      if OccursAt(s, w, j) { OccursPrefixOf(s, "[?if", w, j); }
    }
    assert s[|a|..|a| + |w|] == w;
    ReplaceAllStep(s, w, r, |a|);
    assert s[..|a|] == a && s[|a| + |w|..] == x;
  }

  /**
   * A block's whole text, put between texts free of `[?if`, occurs exactly
   * once: str_replace puts the replacement in its place and keeps the text
   * around it.
   */
  lemma ReplaceBlockInText(a: string, w: string, c: string, r: string)
    requires "[?if" <= w && !Contains(a, "[?if") && !Contains(c, "[?if")
    ensures ReplaceAll(a + w + c, w, r) == a + r + c
  {
    ReplaceBlockFront(a, w, c, r);
    if Contains(c, w) {
      var i :| OccursAt(c, w, i);
      OccursPrefixOf(c, "[?if", w, i);
    }
    ReplaceAllAbsent(c, w, r);
  }

  /**
   * A block inside a template, with no other conditional around it, becomes
   * its body when its tag is set to a non-empty string and vanishes
   * otherwise; the text before and after it is kept verbatim.
   */
  lemma ResolveBlockInText(a: string, tag: string, body: string, c: string, vs: Entries)
    requires !Contains(a, "[?if") && !Contains(c, "[?if")
    requires IsWord(tag) && !Contains(body, "[?fi]")
    ensures var w := "[?if " + tag + "]" + body + "[?fi]";
      ResolveIfBlocks(a + w + c, vs) == a + (if IsTruthy(vs, tag) then body else "") + c
  {
    var w := "[?if " + tag + "]" + body + "[?fi]";
    var s := a + w + c;
    assert s == a + (w + c);
    assert (w + c)[..4] == "[?if";
    CollectPlainPrefix(a, w + c);
    CollectLeadingBlock(tag, body, c);
    NoIfOpenerNoBlocks(c);
    var b := IfBlock(tag, w, body);
    assert CollectIfBlocks(s) == [b];
    ApplyOneBlock(s, b, vs);
    assert w[..4] == "[?if";
    ReplaceBlockInText(a, w, c, if IsTruthy(vs, tag) then body else "");
  }

  /** What a block is replaced by: its body when its tag is set to a non-empty string, else nothing. */
  function Resolved(vs: Entries, tag: string, body: string): string
  {
    if IsTruthy(vs, tag) then body else ""
  }

  lemma ApplyTwoBlocks(s: string, b1: IfBlock, b2: IfBlock, vs: Entries)
    ensures ApplyIfBlocks(s, [b1, b2], vs)
         == ReplaceAll(ReplaceAll(s, b1.whole, Resolved(vs, b1.tag, b1.body)), b2.whole, Resolved(vs, b2.tag, b2.body))
  {
    assert [b1, b2][..1] == [b1];
    ApplyOneBlock(s, b1, vs);
  }

  /** The matches found in a text holding two blocks between texts free of `[?if`. */
  lemma CollectTwoBlocks(a: string, t1: string, b1: string, c: string, t2: string, b2: string, e: string)
    requires IsWord(t1) && !Contains(b1, "[?fi]") && IsWord(t2) && !Contains(b2, "[?fi]")
    requires !Contains(a, "[?if") && !Contains(c, "[?if") && !Contains(e, "[?if")
    ensures CollectIfBlocks(a + BlockText(t1, b1) + c + BlockText(t2, b2) + e)
         == [IfBlock(t1, BlockText(t1, b1), b1), IfBlock(t2, BlockText(t2, b2), b2)]
  {
    var w1, w2 := BlockText(t1, b1), BlockText(t2, b2);
    RegroupTail(a + w1, c, w2, e);
    CollectBlockAfter(a, t1, b1, c + w2 + e);
    CollectBlockAfter(c, t2, b2, e);
    NoIfOpenerNoBlocks(e);
  }

  /**
   * Two conditionals in one template, between texts free of `[?if`, are each
   * replaced in place by their body or by nothing, provided the result holds
   * no `[?if` of its own (a body, or text that joins into one, could
   * otherwise be matched by the second replacement) and the second body has
   * no nested opener. When both blocks are the same text, the first
   * replacement already replaces both, and the second finds nothing left.
   */
  lemma ResolveTwoBlocks(a: string, t1: string, b1: string, c: string, t2: string, b2: string, e: string, vs: Entries)
    requires IsWord(t1) && !Contains(b1, "[?fi]") && IsWord(t2) && !Contains(b2, "[?fi]")
    requires !Contains(a, "[?if") && !Contains(c, "[?if") && !Contains(e, "[?if") && !Contains(b2, "[?if")
    requires !Contains(a + Resolved(vs, t1, b1) + c + Resolved(vs, t2, b2) + e, "[?if")
    ensures ResolveIfBlocks(a + BlockText(t1, b1) + c + BlockText(t2, b2) + e, vs)
         == a + Resolved(vs, t1, b1) + c + Resolved(vs, t2, b2) + e
  {
    var w1, w2 := BlockText(t1, b1), BlockText(t2, b2);
    var r1, r2 := Resolved(vs, t1, b1), Resolved(vs, t2, b2);
    var s := a + w1 + c + w2 + e;
    CollectTwoBlocks(a, t1, b1, c, t2, b2, e);
    ApplyTwoBlocks(s, IfBlock(t1, w1, b1), IfBlock(t2, w2, b2), vs);
    if w1 == w2 {
      assert w1 + [] == w2 + [];
      SameBlock(t1, b1, [], t2, b2, []);
      ReplaceSameBlockTwice(a, w1, c, e, r1);
    } else {
      ReplaceDistinctBlocks(a, t1, b1, c, t2, b2, e, r1, r2);
    }
  }

  /** The same block text twice: the first global replacement replaces both, the second finds none. */
  lemma ReplaceSameBlockTwice(a: string, w: string, c: string, e: string, r: string)
    requires "[?if" <= w && !Contains(a, "[?if") && !Contains(c, "[?if") && !Contains(e, "[?if")
    requires !Contains(a + r + c + r + e, "[?if")
    ensures ReplaceAll(ReplaceAll(a + w + c + w + e, w, r), w, r) == a + r + c + r + e
  {
    RegroupTail(a + w, c, w, e);
    ReplaceBlockFront(a, w, c + w + e, r);
    ReplaceBlockInText(c, w, e, r);
    RegroupTail(a + r, c, r, e);
    ReplaceAbsentBlock(a + r + c + r + e, w, r);
  }

  /** Two different blocks: each replacement finds its own block once. */
  lemma ReplaceDistinctBlocks(a: string, t1: string, b1: string, c: string, t2: string, b2: string, e: string, r1: string, r2: string)
    requires IsWord(t1) && !Contains(b1, "[?fi]") && IsWord(t2) && !Contains(b2, "[?fi]")
    requires !Contains(a, "[?if") && !Contains(c, "[?if") && !Contains(e, "[?if") && !Contains(b2, "[?if")
    requires BlockText(t1, b1) != BlockText(t2, b2)
    requires !Contains(a + r1 + c + r2 + e, "[?if")
    ensures ReplaceAll(ReplaceAll(a + BlockText(t1, b1) + c + BlockText(t2, b2) + e, BlockText(t1, b1), r1), BlockText(t2, b2), r2)
         == a + r1 + c + r2 + e
  {
    var w1, w2 := BlockText(t1, b1), BlockText(t2, b2);
    var u := c + w2 + e;
    RegroupTail(a + w1, c, w2, e);
    ReplaceBlockFront(a, w1, u, r1);
    OtherBlockAbsent(t1, b1, c, t2, b2, e);
    ReplaceAllAbsent(u, w1, r1);
    var p := a + r1 + c;
    RegroupTail(a + r1, c, w2, e);
    ContainsPrefix(p, r2 + e, "[?if");
    assert p + (r2 + e) == a + r1 + c + r2 + e;
    ReplaceBlockInText(p, w2, e, r2);
  }

  /**
   * The global replacement reaches into later blocks: in
   * `[?if A]x[?fi] [?if B][?if A]x[?fi]` the second match is
   * `[?if B][?if A]x[?fi]`, but replacing the first match everywhere also
   * rewrites the copy inside it, so the second match no longer occurs and
   * its opener `[?if B]` is left in the output.
   */
  lemma NestedCopyLeavesOpener(s: string, vs: Entries)
    requires s == "[?if A]x[?fi] [?if B][?if A]x[?fi]"
    requires IsTruthy(vs, "A") && IsTruthy(vs, "B")
    ensures ResolveIfBlocks(s, vs) == "x [?if B]x"
  {
    var wA, wB, p := BlockText("A", "x"), BlockText("B", "[?if A]x"), " [?if B]";
    var bA, bB := IfBlock("A", wA, "x"), IfBlock("B", wB, "[?if A]x");
    NestedExampleBlocks(s);
    assert ResolveIfBlocks(s, vs) == ApplyIfBlocks(s, [bA, bB], vs);
    ApplyTwoBlocks(s, bA, bB, vs);
    assert Resolved(vs, "A", "x") == "x";
    assert Resolved(vs, "B", "[?if A]x") == "[?if A]x";
    NestedExampleTexts();
    NestedExampleLayout(s, wA, wB, p);
    NestedExampleFirstPass(wA, p);
    assert ReplaceAll(s, wA, "x") == "x" + p + "x";
    NestedExampleSecondPass(p, wB);
  }

  /** The example text as the first block, a space and the second block. */
  lemma NestedExampleSplit(s: string, wA: string, wB: string)
    requires s == "[?if A]x[?fi] [?if B][?if A]x[?fi]"
    requires wA == "[?if A]x[?fi]" && wB == "[?if B][?if A]x[?fi]"
    ensures s == wA + " " + wB
  {
  }

  /** The example text as the first block, the second block's opener and the copy. */
  lemma NestedExampleLayout(s: string, wA: string, wB: string, p: string)
    requires s == "[?if A]x[?fi] [?if B][?if A]x[?fi]"
    requires wA == "[?if A]x[?fi]" && wB == "[?if B][?if A]x[?fi]" && p == " [?if B]"
    ensures s == wA + p + wA
  {
  }

  /** The two block texts of the example, written out. */
  lemma NestedExampleTexts()
    ensures BlockText("A", "x") == "[?if A]x[?fi]"
    ensures BlockText("B", "[?if A]x") == "[?if B][?if A]x[?fi]"
  {
  }

  /** After the first pass the second block, longer than the whole text, no longer occurs. */
  lemma NestedExampleSecondPass(p: string, wB: string)
    requires p == " [?if B]" && wB == BlockText("B", "[?if A]x")
    ensures ReplaceAll("x" + p + "x", wB, "[?if A]x") == "x" + p + "x" == "x [?if B]x"
  {
    var f := "x" + p + "x";
    assert !OccursAt(f, wB, 0);
    ReplaceAllAbsent(f, wB, "[?if A]x");
  }

  /** The two matches of the example: the first block, and the second with the copy as its body. */
  lemma NestedExampleBlocks(s: string)
    requires s == "[?if A]x[?fi] [?if B][?if A]x[?fi]"
    ensures CollectIfBlocks(s)
         == [IfBlock("A", BlockText("A", "x"), "x"), IfBlock("B", BlockText("B", "[?if A]x"), "[?if A]x")]
  {
    var bB := "[?if A]x";
    NestedExampleTexts();
    var wA, wB := BlockText("A", "x"), BlockText("B", bB);
    NestedExampleSplit(s, wA, wB);
    Padded(wA, " ", wB);
    assert IsWord("A") && IsWord("B");
    forall j | 0 <= j ensures !OccursAt(bB, "[?fi]", j) {
      if j + 5 <= |bB| {
        assert bB[j..j + 5][0] == bB[j];
        if j == 0 { assert bB[0..5][2] == 'i'; }
      }
    }
    CollectTwoBlocks([], "A", "x", " ", "B", bB, []);
  }

  /** Replacing the first match everywhere rewrites both copies of it. */
  lemma NestedExampleFirstPass(wA: string, p: string)
    requires wA == "[?if A]x[?fi]" && p == " [?if B]"
    ensures ReplaceAll(wA + p + wA, wA, "x") == "x" + p + "x"
  {
    assert wA + p + wA == [] + wA + (p + wA);
    ReplaceBlockFront([], wA, p + wA, "x");
    NestedExampleNoEarlyCopy(wA, p);
    ReplaceAtEnd(p, wA, "x");
    assert [] + "x" + (p + "x") == "x" + p + "x";
  }

  /** In front of the copy inside the second block, the first block does not occur. */
  lemma NestedExampleNoEarlyCopy(w: string, p: string)
    requires w == "[?if A]x[?fi]" && p == " [?if B]"
    ensures forall j :: 0 <= j < |p| ==> !OccursAt(p + w, w, j)
  {
    var x := p + w;
    forall j | 0 <= j < |p| ensures !OccursAt(x, w, j) {
      if j == 1 {
        assert x[1..14][5] == p[6] == 'B';
      } else {
        assert x[j..j + 13][0] == x[j] == p[j];
      }
    }
  }

  /** A text free of `[?if` holds no block. */
  lemma ReplaceAbsentBlock(f: string, w: string, r: string)
    requires "[?if" <= w && !Contains(f, "[?if")
    ensures ReplaceAll(f, w, r) == f
  {
    if Contains(f, w) {
      var i :| OccursAt(f, w, i);
      OccursPrefixOf(f, "[?if", w, i);
    }
    ReplaceAllAbsent(f, w, r);
  }

  /** The string "0" counts as set: its block keeps the body. */
  lemma ZeroKeepsBody(tag: string, body: string, vs: Entries)
    requires IsWord(tag) && !Contains(body, "[?fi]")
    requires Lookup(vs, tag) == Some("0")
    ensures ResolveIfBlocks("[?if " + tag + "]" + body + "[?fi]", vs) == body
  {
    ResolveSingleBlock(tag, body, vs);
  }

  /** Text without a conditional comes through resolution unchanged. */
  lemma ResolveNoBlocks(s: string, vs: Entries)
    requires !Contains(s, "[?if")
    ensures ResolveIfBlocks(s, vs) == s
  {
    NoIfOpenerNoBlocks(s);
  }

  /**
   * Keys act in the table's order: the first key's tags are replaced in the
   * original text, and the later keys work on the result, including text the
   * first value brought in.
   */
  lemma {:induction false} SubstituteInOrder(s: string, key: string, value: string, rest: Entries)
    ensures SubstituteTags(s, [(key, value)] + rest)
         == SubstituteTags(ReplaceAll(s, TagFor(key), value), rest)
    decreases |rest|
  {
    var vs := [(key, value)] + rest;
    if rest == [] {
      assert vs[..0] == [];
    } else {
      var front := rest[..|rest| - 1];
      assert vs[..|vs| - 1] == [(key, value)] + front;
      assert vs[|vs| - 1] == rest[|rest| - 1];
      SubstituteInOrder(s, key, value, front);
    }
  }

  /**
   * One key: every leftmost non-overlapping occurrence of its tag becomes the
   * value, verbatim, and the text between occurrences is kept verbatim.
   */
  lemma SubstituteOneKey(s: string, key: string, value: string)
    ensures SubstituteTags(s, [(key, value)]) == Join(Split(s, TagFor(key)), value)
  {
    assert [(key, value)][..0] == [];
    ReplaceAllIsSplitJoin(s, TagFor(key), value);
  }

  /** Text without `[@` is left alone by every key. */
  lemma {:induction false} SubstituteNoTags(s: string, vs: Entries)
    requires !Contains(s, "[@")
    ensures SubstituteTags(s, vs) == s
    decreases |vs|
  {
    if vs != [] {
      var (key, value) := vs[|vs| - 1];
      SubstituteNoTags(s, vs[..|vs| - 1]);
      forall i | OccursAt(s, TagFor(key), i) ensures false {
        OccursPrefixOf(s, "[@", TagFor(key), i);
      }
      ReplaceAllAbsent(s, TagFor(key), value);
    }
  }

  /**
   * A template with no block comment, no conditional, no tag and no `//`
   * other than after a colon (so none at all, or only URLs) renders as its
   * file's contents.
   */
  lemma RenderPlain(rootdir: string, file: string, vs: Entries, fs: FileSystem)
    requires rootdir + file in fs
    requires !Contains(fs[rootdir + file], "/*")
    requires forall i :: OccursAt(fs[rootdir + file], "//", i) ==> 0 < i && fs[rootdir + file][i - 1] == ':'
    requires !Contains(fs[rootdir + file], "[?if") && !Contains(fs[rootdir + file], "[@")
    ensures Render(rootdir, file, vs, fs) == fs[rootdir + file]
  {
    var c := fs[rootdir + file];
    BlockStripNoOpener(c);
    ColonGuard(c);
    ResolveNoBlocks(c, vs);
    SubstituteNoTags(c, vs);
    TagStripNoOpener(c);
  }

  // ---------------------------------------------------------------------
  // Merging
  // ---------------------------------------------------------------------

  /** Each text followed by the separator, the last one included. */
  function Joined(texts: seq<string>, separator: string): string
    decreases |texts|
  {
    if texts == [] then ""
    else Joined(texts[..|texts| - 1], separator) + texts[|texts| - 1] + separator
  }

  /** Joining one more text appends it and a separator. */
  lemma JoinedStep(texts: seq<string>, i: nat, separator: string)
    requires i < |texts|
    ensures Joined(texts[..i + 1], separator) == Joined(texts[..i], separator) + texts[i] + separator
  {
    assert texts[..i + 1][..i] == texts[..i];
  }

  /** Joined is `implode` with one more separator at the end, and "" for no texts. */
  lemma {:induction false} JoinedIsJoinThenSeparator(texts: seq<string>, separator: string)
    ensures Joined(texts, separator) == if texts == [] then "" else Join(texts, separator) + separator
    decreases |texts|
  {
    if |texts| > 1 {
      var front := texts[..|texts| - 1];
      JoinedIsJoinThenSeparator(front, separator);
      JoinSnoc(front, texts[|texts| - 1], separator);
      assert front + [texts[|texts| - 1]] == texts;
    }
  }

  lemma {:induction false} JoinSnoc(parts: seq<string>, last: string, glue: string)
    requires parts != []
    ensures Join(parts + [last], glue) == Join(parts, glue) + glue + last
    decreases |parts|
  {
    if |parts| == 1 {
      assert (parts + [last])[1..] == [last];
    } else {
      JoinSnoc(parts[1..], last, glue);
      assert (parts + [last])[1..] == parts[1..] + [last];
    }
  }

  /** An item to merge: a template, or anything else. */
  datatype Item = Tpl(template: Template) | Other

  /** What an item contributes to a merge. */
  function ItemText(item: Item, fs: FileSystem): string
    reads if item.Tpl? then {item.template} else {}
  {
    match item
    case Other => TypeError
    case Tpl(t) => Render(t.rootdir, t.file, t.values, fs)
  }

  /** The contribution of every item, in order. */
  function Texts(items: seq<Item>, fs: FileSystem): (r: seq<string>)
    reads set i | 0 <= i < |items| && items[i].Tpl? :: items[i].template
    ensures |r| == |items|
    decreases |items|
  {
    if items == [] then []
    else
      var front := items[..|items| - 1];
      assert forall i :: 0 <= i < |front| ==> front[i] == items[i];
      Texts(front, fs) + [ItemText(items[|items| - 1], fs)]
  }

  /** Each item contributes its own text, at its own place. */
  lemma {:induction false} TextsAt(items: seq<Item>, fs: FileSystem, i: nat)
    requires i < |items|
    ensures Texts(items, fs)[i] == ItemText(items[i], fs)
    decreases |items|
  {
    var front := items[..|items| - 1];
    if i < |front| {
      TextsAt(front, fs, i);
    }
  }

  /** A template file and the values for its tags. */
  class Template {
    var file: string
    var rootdir: string
    var values: Entries

    ghost predicate Valid()
      reads this
    {
      KeysUnique(values)
    }

    constructor (rootdir: string, folder: string, file: string)
      ensures Valid()
      ensures this.rootdir == rootdir && this.file == folder + "/" + file && values == []
    {
      this.rootdir := rootdir;
      this.file := folder + "/" + file;
      values := [];
    }

    /** Sets the value that replaces the tag `key`. */
    method Set(key: string, value: string)
      requires Valid()
      modifies this
      ensures Valid()
      ensures values == Assign(old(values), key, value)
      ensures Lookup(values, key) == Some(value)
      ensures forall k :: k != key ==> Lookup(values, k) == Lookup(old(values), k)
      ensures key in Keys(old(values)) ==> Keys(values) == Keys(old(values))
      ensures key !in Keys(old(values)) ==> values == old(values) + [(key, value)]
      ensures file == old(file) && rootdir == old(rootdir)
    {
      AssignFacts(values, key, value);
      values := Assign(values, key, value);
    }

    /**
     * Renders the template: the inline error when the file is missing,
     * otherwise the file's text with comments removed, conditionals
     * resolved, tags substituted and unknown tags deleted.
     */
    method Output(fs: FileSystem) returns (out: string)
      ensures rootdir + file !in fs ==> out == LoadError(file)
      ensures out == Render(rootdir, file, values, fs)
    {
      var fullPath := rootdir + file;
      if fullPath !in fs {
        return LoadError(file);
      }
      out := fs[fullPath];
      out := StripComments(out);

      var ifBlocks := CollectIfBlocks(out);
      ghost var stripped := out;
      var i := 0;
      while i < |ifBlocks|
        invariant 0 <= i <= |ifBlocks|
        invariant out == ApplyIfBlocks(stripped, ifBlocks[..i], values)
      {
        var block := ifBlocks[i];
        if IsTruthy(values, block.tag) {
          out := ReplaceAll(out, block.whole, block.body);
        } else {
          out := ReplaceAll(out, block.whole, "");
        }
        ApplyIfBlocksStep(stripped, ifBlocks, i, values);
        i := i + 1;
      }
      assert ifBlocks[..i] == ifBlocks;

      ghost var resolved := out;
      var j := 0;
      while j < |values|
        invariant 0 <= j <= |values|
        invariant out == SubstituteTags(resolved, values[..j])
      {
        var (key, value) := values[j];
        out := ReplaceAll(out, TagFor(key), value);
        SubstituteTagsStep(resolved, values, j);
        j := j + 1;
      }
      assert values[..j] == values;
      out := StripLeftoverTags(out);
    }

    /**
     * Concatenates what every item contributes, each followed by
     * `separator`: a template's rendering, or the type error for anything else.
     */
    static method Merge(items: seq<Item>, fs: FileSystem, separator: string := "\n") returns (out: string)
      ensures out == Joined(Texts(items, fs), separator)
    {
      ghost var texts := Texts(items, fs);
      out := "";
      var i := 0;
      while i < |items|
        invariant 0 <= i <= |items|
        invariant out == Joined(texts[..i], separator)
      {
        var content;
        TextsAt(items, fs, i);
        if items[i].Tpl? {
          content := items[i].template.Output(fs);
        } else {
          content := TypeError;
        }
        JoinedStep(texts, i, separator);
        out := out + content + separator;
        i := i + 1;
      }
      assert texts[..i] == texts;
    }
  }
}
